=== FILE: README.md ===
# Crawl panel session controller, in Dafny

This project models the client-side controller of the Scrappo crawl panel, `src/pages/Index.tsx`. The panel starts a crawl job that runs on a remote backend. It polls the job's status, shows a progress percentage, and smooths write throughput into an ETA label. During the first seventy seconds it shows a simulated warm-up countdown.

The model is functional. Every piece of panel state is an immutable record, and every handler is a pure function from a state to the next state. The wall-clock time (`Date.now()`), interval handles (`setInterval`) and backend replies are parameters. Timer handles are `Option` fields.

| module | file | what it holds |
|---|---|---|
| `Wrappers` | wrappers.dfy | `Option`, `Result` |
| `Text` | text.dfy | JavaScript `trim`, `startsWith`, `split`, decimal rendering of integers |
| `Rounding` | rounding.dfy | `Math.round`, `Math.max`, `Math.min` over exact numbers |
| `Status` | status.dfy | the backend's status sample |
| `Progress` | progress.dfy | the progress-bar percentage |
| `Warmup` | warmup.dfy | the stage table, the stage scan and one warm-up tick |
| `EtaFormat` | eta_format.dfy | `formatEta` and a reader for its output |
| `RateEstimator` | rate_estimator.dfy | the `{t, written, ema}` tracker and `updateEta` |
| `StartForm` | start_form.dfy | URL validation and normalisation, the exclude list, the crawl configuration |
| `Session` | session.dfy | start, stop, both timers, the poll callback, reachable-state invariant |

## Model

| member | source | states |
|---|---|---|
| `Rounding.Round` | src/pages/Index.tsx:126 | `Math.round` returns the nearest integer, and a half rounds up. |
| `Progress.ProgressPercent` | src/pages/Index.tsx:124-128 | The percentage is always in [0, 100], including when nothing is known. It is the visited share of visited plus queued, rounded to the nearest integer. It is 0 when nothing has been visited, including when nothing is known at all, and 100 when at least one page has been visited and the queue is empty. |
| `Progress.ProgressMonotone` | src/pages/Index.tsx:125-126 | With the same number of known pages, visiting more never lowers the percentage. |
| `Warmup.StageIndex` | src/pages/Index.tsx:194-198 | The scan leaves an index of the table whose threshold is reached, or the first step. |
| `Warmup.StageIsLastReached` | src/pages/Index.tsx:177-198 | On a table sorted by threshold, the scan with early exit yields the last step whose threshold is reached, or the first step when none is. |
| `Warmup.StageMonotone` | src/pages/Index.tsx:194-198 | On a sorted table the stage never moves backwards as elapsed time grows. |
| `Warmup.StageMessage` | src/pages/Index.tsx:194-198 | The message shown is the message of the last step reached. |
| `Warmup.StageAt25` | src/pages/Index.tsx:177-198 | After 25 elapsed seconds, the message of the threshold-20 step is shown. |
| `Warmup.CeilSeconds` | src/pages/Index.tsx:191 | The whole seconds left, rounded up: the millisecond count lies in (1000·(s-1), 1000·s]. |
| `Warmup.WarmupPercent` | src/pages/Index.tsx:202 | The warm-up percentage is in [2, 100]. Above the floor of 2 it is the elapsed share of 70 s, rounded to the nearest integer; it sits at 2 only when that share is below 2.5 %. |
| `Warmup.WarmupPercentMonotone` | src/pages/Index.tsx:202 | The warm-up percentage never decreases as elapsed time grows. |
| `Warmup.Tick` | src/pages/Index.tsx:188-207 | The percentage is in [2, 100] and elapsed time in [0, 70]. The tick completes exactly when the remaining time is 0, and that is exactly when the end time is reached. Before the end time, the countdown is the time left rounded up to whole seconds: the milliseconds left lie in (1000·(remaining-1), 1000·remaining]. Once the warm-up has started, remaining ≤ 70 and elapsed + remaining = 70. The percentage is `WarmupPercent` of the elapsed seconds and the message is the stage message. |
| `Warmup.TickMonotone` | src/pages/Index.tsx:189-203 | As wall-clock time advances, elapsed time, the percentage and the stage never go backwards. |
| `Warmup.TickAtStart` | src/pages/Index.tsx:171-210 | The immediate tick at warm-up start shows 70 s left, 2 % and the first stage, and does not complete. |
| `EtaFormat.Decompose` | src/pages/Index.tsx:159-162 | Below one hour, a count splits into minutes and seconds: 60·m + s equals the count, s < 60 and m ≤ 59. From one hour on it is hours ≥ 1 plus minutes < 60, truncated to the minute. A negative count has no estimate. |
| `EtaFormat.FormatEta` | src/pages/Index.tsx:158-163 | The label is the placeholder "—" exactly when the count is negative. |
| `EtaFormat.FormatEtaReadsBack` | src/pages/Index.tsx:158-163 | Reading the label back, with a reader that accepts only numerals without leading zeros, gives exactly the decomposition of the count. Because that reader is injective, the label is fixed exactly. |
| `EtaFormat.FormatEtaInjectiveBelowHour` | src/pages/Index.tsx:158-163 | Two different non-negative counts below one hour never share a label. |
| `EtaFormat.FormatEtaExamples` | src/pages/Index.tsx:158-163 | 300 → "5m 0s", 3599 → "59m 59s", 3600 → "1h 0m", -1 → "—". |
| `Text.NatToString` | src/pages/Index.tsx:162 | The rendering of an integer is non-empty, all digits, and has no leading zero. |
| `Text.DigitsValueOfNatToString` | src/pages/Index.tsx:162 | Reading the rendered digits back gives the number. |
| `RateEstimator.InstantRate` | src/pages/Index.tsx:149-151 | The instantaneous rate is non-negative. It equals the clamped write delta per millisecond interval, scaled to per second, with the interval floored at 1 ms. |
| `RateEstimator.Smooth` | src/pages/Index.tsx:152-153 | The new average lies between the old average and the fresh rate. It moves 30 % of the way toward the fresh rate. |
| `RateEstimator.EtaSeconds` | src/pages/Index.tsx:155-156 | With a positive rate, the ETA is the nearest integer to remaining/rate and is never negative. Otherwise it is -1. |
| `RateEstimator.UpdateEta` | src/pages/Index.tsx:131-168 | With no known pages, the label is "ETA —" and the tracker is unchanged. Without a baseline, the call records `{now, written, 0}` and shows "ETA —". Otherwise the baseline moves to `(now, written)` and the average takes one smoothing step. A non-negative average stays non-negative. The label is "ETA —" exactly when there are no pages, no baseline, or no positive rate. |
| `RateEstimator.UpdateEtaReadsCounters` | src/pages/Index.tsx:133-135 | The estimator reads only the visited, queued and written counters of a sample. |
| `RateEstimator.RunKeepsEmaNonNegative` | src/pages/Index.tsx:149-153 | Across every sequence of samples, the smoothed rate stays non-negative. |
| `RateEstimator.RunFromResetNonNegative` | src/pages/Index.tsx:143-153 | From the reset tracker, every run of samples keeps the smoothed rate non-negative. |
| `RateEstimator.FirstUpdateAfterReset` | src/pages/Index.tsx:143-147 | Whatever the sample and time, the first update after a reset shows "ETA —". |
| `RateEstimator.ScenarioFiveMinutes` | src/pages/Index.tsx:131-168 | Baseline at 1 s, then 10 writes in 10 s with 90 pages left: average 0.3, label "ETA 5m 0s". |
| `RateEstimator.BaselineAtTimeZeroIsForgotten` | src/pages/Index.tsx:143-144 | A baseline recorded at time 0 is treated as no baseline, so the next sample records a new one. |
| `Text.Trim` | src/pages/Index.tsx:243 | The result is a contiguous slice of the input with only whitespace before and after it, and has no whitespace at either end. It is empty exactly when the input is all whitespace. |
| `Text.TrimIdempotent` | src/pages/Index.tsx:243 | Trimming twice is trimming once. |
| `Text.StartsWith` | src/pages/Index.tsx:250 | The text starts with the prefix exactly when it is at least as long and agrees with the prefix position by position. |
| `Text.Split` | src/pages/Index.tsx:254 | Splitting gives at least one piece, and no piece contains the separator. |
| `Text.JoinSplit` | src/pages/Index.tsx:254 | Joining the pieces with the separator gives back the input. |
| `Text.SplitJoin` | src/pages/Index.tsx:254 | Joining separator-free pieces and splitting again gives back the pieces. |
| `StartForm.NormalizeUrl` | src/pages/Index.tsx:250 | The result starts with "http". It is the input unchanged exactly when the input starts with "http", and is "https://" + input otherwise. |
| `StartForm.NormalizeUrlIdempotent` | src/pages/Index.tsx:250 | Normalising twice is normalising once. |
| `StartForm.CleanEntries` | src/pages/Index.tsx:254 | Every entry is non-empty, trimmed, and is the trim of some piece. Every piece that is non-blank after trimming appears trimmed. |
| `StartForm.CleanEntriesOne` | src/pages/Index.tsx:254 | One piece gives its trim, or nothing when it is blank. |
| `StartForm.CleanEntriesAppend` | src/pages/Index.tsx:254 | Cleaning a concatenation is the concatenation of the cleanings, so the order of pieces and repeated entries are kept. |
| `StartForm.ExcludeList` | src/pages/Index.tsx:254 | Every exclude entry is non-empty, trimmed and comma-free. |
| `StartForm.ExcludeListComplete` | src/pages/Index.tsx:254 | Every non-blank comma-separated piece appears, trimmed, in the exclude list. |
| `StartForm.ExcludeListSingle` | src/pages/Index.tsx:254 | A trimmed, comma-free, non-empty text is a one-entry list of itself. |
| `StartForm.BuildConfig` | src/pages/Index.tsx:243-256 | The build fails exactly when the URL is blank after trimming. Otherwise the trimmed URL is kept if it starts with "http" and gets "https://" in front if not. An empty target domain becomes absent. The numeric fields and the OAuth flag pass through. The exclude list is exactly the cleaned comma-separated pieces, and its entries are non-empty, trimmed and comma-free. |
| `StartForm.BuildConfigRefusesBlank` | src/pages/Index.tsx:243-247 | A URL of blanks only is refused. |
| `Session.StopWarmup` | src/pages/Index.tsx:214-220 | The warm-up box goes inactive and its handle is cleared. Nothing else changes. |
| `Session.StopWarmupIdempotent` | src/pages/Index.tsx:214-220 | Stopping the warm-up twice is stopping it once. |
| `Session.ApplyTick` | src/pages/Index.tsx:200-207 | The box shows the tick's percentage, countdown and message. A completing tick stops the warm-up; any other tick leaves the timer alone. |
| `Session.StartWarmup` | src/pages/Index.tsx:171-212 | Starting the warm-up resets the box to active, 2 %, 70 s and the first message. It sets the end time 70 s ahead and stores the new handle. |
| `Session.WarmupFires` | src/pages/Index.tsx:188-211 | A cleared interval does nothing. A live one shows the tick's countdown, percentage and message. Before the end time it leaves the box active and keeps its handle, and it clears itself exactly when the end time is reached. The percentage stays in [2, 100], and nothing outside the warm-up box and its handle changes. |
| `Session.StartPolling` | src/pages/Index.tsx:297-309 | A poll timer exists afterwards. An existing timer is kept and nothing changes. |
| `Session.StartPollingIdempotent` | src/pages/Index.tsx:297-309 | A second start of the poll keeps the first timer. |
| `Session.StopPolling` | src/pages/Index.tsx:311-316 | The poll handle is cleared and nothing else changes. |
| `Session.StopPollingIdempotent` | src/pages/Index.tsx:311-316 | Stopping the poll twice is stopping it once. |
| `Session.PollFiresAsWritten` | src/pages/Index.tsx:299-307 | The sample and its percentage are shown. When the captured flag is false, the tracker and the ETA label are untouched. |
| `Session.PollFires` | src/pages/Index.tsx:299-307 | The sample and its percentage are shown. While running, the sample feeds the estimator; otherwise the tracker and the ETA label are untouched. Nothing else changes: not the running flag, the busy flag, the status text, the progress view or either timer. |
| `Session.Launch` | src/pages/Index.tsx:259-267 | An accepted start sets running, progress and busy and resets the tracker. It starts the warm-up with the new handle, keeps any existing poll timer or else stores the new one, and leaves the counters and the ETA label alone. |
| `Session.HandleStart` | src/pages/Index.tsx:242-274 | A blank URL is refused with no change. A declined or failed backend call changes nothing. Only an accepted call launches the session. |
| `Session.HandleStop` | src/pages/Index.tsx:276-287 | A failed stop changes nothing. A resolved stop clears running and both timers and hides the warm-up box. Nothing else changes: the progress view, the busy flag, the status text, the counters, the percentage, the label, the tracker and the warm-up box's last reading are all kept. |
| `Session.HandleStopIdempotent` | src/pages/Index.tsx:276-287 | Stopping twice ends where stopping once does, whatever the replies' content. |
| `Session.FailedStopKeepsTimers` | src/pages/Index.tsx:276-287 | A failed stop leaves both timers and the running flag in place. |
| `Session.FinishedFlagIgnored` | src/pages/Index.tsx:299-307 | A sample's `finished` flag neither ends the session nor changes the tracker, the label or the percentage. |
| `Session.Teardown` | src/pages/Index.tsx:318-325 | Unmounting clears both timers and hides the warm-up box; nothing else changes. |
| `Session.TeardownAfterStop` | src/pages/Index.tsx:276-325 | After a resolved stop, unmounting changes nothing: the stop has already cleared both timers. |
| `Session.Offered` | src/pages/Index.tsx:346-490 | The start button and the Enter key in the URL field exist only while the progress view is hidden, and the stop button only while it is shown. |
| `Session.Step` | src/pages/Index.tsx:242-316 | A press of a button that is not rendered changes nothing. Only a start press creates a poll timer. Only a poll changes the counters or the ETA label, and a poll never changes the running flag or either timer. |
| `Session.InitialValid` | src/pages/Index.tsx:59-82 | The first render satisfies the panel invariant. |
| `Session.StepPreservesValid` | src/pages/Index.tsx:242-316 | Every event keeps the invariant. The average stays ≥ 0, the percentage matches the counters and is in [0, 100], and the warm-up percentage is in [2, 100]. The warm-up box is active iff its timer exists. Running holds iff a poll timer exists. A warm-up timer implies running, and running implies the progress view. |
| `Session.RunPreservesValid` | src/pages/Index.tsx:242-316 | Every sequence of events keeps that invariant. |
| `Session.StartOnlyWhenStopped` | src/pages/Index.tsx:346-490 | The start button, rendered only while the progress view is hidden, is only ever pressed while no crawl is running. |
| `Session.PollTimerBornWhileStopped` | src/pages/Index.tsx:297-309 | Every poll timer is created by a start press that was offered, that was pressed while the running flag was false, and whose backend call resolved with success. |
| `Session.StepAsWritten` | src/pages/Index.tsx:299-305 | With the captured flag, one event never changes the ETA label, and the result differs from the corrected step only in the tracker and the label. |
| `Session.AsWrittenEtaFrozen` | src/pages/Index.tsx:299-307 | With the poll callback as written, no sequence of events ever changes the ETA label. |
| `Session.StaleFlagFreezesEta` | src/pages/Index.tsx:299-307 | After an accepted start and two samples ten seconds apart, the corrected poll shows "ETA 5m 0s". As written, it still shows "ETA —". |

Where the code departs from the controller's intended design, the model follows the code:

- A failed stop call leaves everything as it was. The timers and the running flag are cleared only when the call resolves.
- The reply's `success` field is not read on stop.
- `showProgress` is never reset after a stop.
- The busy flag and the "Iniciando" status text are never reset after a stop either.
- A sample's `finished` flag is never read.
- A start reply with `success: false` is ignored silently.
- There is no "Starting" or "Stopping" phase, only the running flag.
- A baseline recorded at time 0 means "no baseline" (`BaselineAtTimeZeroIsForgotten`). So a scenario whose first sample arrives at time 0 only gets its baseline at the second sample.
- The warm-up's elapsed time is only floored at 0 and never clamped at 70. It cannot exceed 70 because the remaining time is never negative.

## Findings

| source | as written | input that shows it | evidently intended | confidence | as-written member | corrected member |
|---|---|---|---|---|---|---|
| src/pages/Index.tsx:299-305 | The poll callback tests `isRunning`, the value captured in the render whose start handler created the interval. The start button exists only while the progress view is hidden, and then `isRunning` is false. So `updateEta` is never called. | An accepted start, then samples (visited 0, queue 100, written 0) at 1 s and (10, 90, 10) at 11 s. The ETA label stays "ETA —". | Feed each sample to the estimator while the session is running, which shows "ETA 5m 0s" here. | high; not executed | `Session.PollFiresAsWritten` (with `Session.AsWrittenEtaFrozen`, `Session.StaleFlagFreezesEta`, `Session.PollTimerBornWhileStopped`) | `Session.PollFires` |

The session events (`Session.Step`) use the corrected poll. `Session.StepAsWritten` replays the same events with the captured flag.

## Left out

- The page markup, the presentational components, toasts and the theme toggle are not modelled. Only the rule about when each button is offered (`Session.Offered`) is kept.
- The form's load from and save to `localStorage` is not modelled, because it is I/O with a JSON parse.
- The dashboard and export actions are not modelled, because they only raise toasts.
- The mock backend calls are not modelled. Start and stop outcomes are inputs, and a poll's reply is an optional sample, where `None` stands for a missing status or a failed fetch.
- The unused countdown and heartbeat handles are not modelled.
- `setInterval` scheduling is not modelled. A timer "fires" when an event says so, and a cleared timer never fires.
- A poll's request and reply are one step, so a reply that arrives after a stop is not modelled.
- `Session.HandleStart`, `Session.HandleStop`: a backend call and its reply are one step. With a backend that answers later, the start button stays rendered while the start call is pending. A second press would then run `startWarmup` twice, and the second interval handle would overwrite the first without clearing it. That first interval would keep ticking past a stop and past unmount. The model cannot reach that state, and the invariant that the warm-up box is active exactly when a warm-up timer exists relies on it.
- React's deferred state updates are idealised. Each handler's state changes apply at once, in source order. The percentage effect runs as soon as the status changes.
- `Rounding.Round`, `Progress.ProgressPercent`, `RateEstimator.InstantRate`, `RateEstimator.Smooth`, `RateEstimator.EtaSeconds`: JavaScript doubles are idealised as exact reals. No claim is made about IEEE-754 rounding, for example at an exact .5 tie in the progress share or in `remaining / ema`. For the warm-up percentage, 10·elapsed/7 is never a tie, so the real-number model agrees with doubles there.
- `RateEstimator.UpdateEta`: with no new writes, the average shrinks by a factor of 0.7 per poll. With exact reals it never reaches 0, so the label always shows a finite estimate. With doubles it underflows to 0 after about 2,100 polls, which brings the label back to "ETA —". Shortly before that, `remaining / ema` overflows to `Infinity`, and the source would show "ETA Infinityh NaNm". The model does not show either effect.
- `EtaFormat.FormatEta`: works on exact integers. In the source, only the hour count `Math.floor(m / 60)` can grow without bound, and JavaScript would render it in exponent notation from 10^21 hours on, which is 3.6·10^24 seconds. Above 2^53 seconds, the source's `s % 60` and `Math.floor(s / 60)` also act on a rounded double, so the model's exact split may differ there.
- `Session.StartWarmup`: the immediate tick is taken at the same instant as the end-time computation. The source reads the clock twice, which cannot matter unless the two reads are a full second apart.
- `Text.Trim`: works on Unicode scalar values, where JavaScript works on UTF-16 code units. The whitespace set is the one `String.prototype.trim` strips.
- The `|| 0` defaults on sample counters are not modelled, because counters are modelled as natural numbers.

=== FILE: eta_format.dfy ===
/**
 * Rendering of an ETA in seconds: a placeholder for "unknown", minutes and
 * seconds below one hour, hours and minutes from one hour on. A reader for the
 * rendered text shows that the rendering keeps the decomposition it claims.
 */
module EtaFormat {
  import opened Wrappers
  import opened Text

  /** The placeholder shown when no estimate exists. */
  const Unknown: string := "—"

  /** What an ETA label says. */
  datatype EtaReading =
    | NoEstimate
    | MinutesSeconds(minutes: nat, seconds: nat)
    | HoursMinutes(hours: nat, minutes: nat)

  /** How many seconds `s` is, in the units the label uses. */
  function Decompose(s: int): (r: EtaReading)
    ensures r.NoEstimate? <==> s < 0
    ensures r.MinutesSeconds? ==> r.seconds < 60 && r.minutes <= 59 && 60 * r.minutes + r.seconds == s
    ensures r.HoursMinutes? ==>
      && 1 <= r.hours && r.minutes < 60
      && 3600 * r.hours + 60 * r.minutes <= s < 3600 * r.hours + 60 * r.minutes + 60
  {
    if s < 0 then NoEstimate
    else if s / 60 > 59 then HoursMinutes(s / 3600, (s / 60) % 60)
    else MinutesSeconds(s / 60, s % 60)
  }

  /** The label: "—", "{m}m {ss}s" or "{h}h {m}m". */
  function FormatEta(s: int): (r: string)
    ensures r == Unknown <==> s < 0
  {
    if s < 0 then Unknown
    else
      var m := s / 60;
      var ss := s % 60;
      if m > 59 then NatToString(m / 60) + "h " + NatToString(m % 60) + "m"
      else NatToString(m) + "m " + NatToString(ss) + "s"
  }

  /**
   * The numeral at the start of `t`, as its value and its length. Only the
   * canonical form is read: a leading '0' is the whole numeral "0".
   */
  function ReadNumeral(t: string): Option<(nat, nat)> {
    var a := DigitRun(t);
    if a == 0 || (t[0] == '0' && a > 1) then None else Some((DigitsValue(t[..a]), a))
  }

  /** Reads a label back: a number, a unit letter, a space, a number, a unit letter. */
  function ReadEta(txt: string): Option<EtaReading> {
    if txt == Unknown then Some(NoEstimate)
    else match ReadNumeral(txt)
      case None => None
      case Some((first, a)) =>
        if a + 2 > |txt| || txt[a + 1] != ' ' then None
        else
          var rest := txt[a + 2..];
          match ReadNumeral(rest)
          case None => None
          case Some((second, b)) =>
            if b + 1 != |rest| then None
            else if txt[a] == 'm' && rest[b] == 's' then Some(MinutesSeconds(first, second))
            else if txt[a] == 'h' && rest[b] == 'm' then Some(HoursMinutes(first, second))
            else None
  }

  /** A numeral in canonical form: digits only, and a leading '0' only in "0" itself. */
  predicate Canonical(d: string) {
    d != [] && AllDigits(d) && (d[0] == '0' ==> |d| == 1)
  }

  /** Every rendered number is canonical. */
  lemma NatToStringCanonical(n: nat)
    ensures Canonical(NatToString(n))
  {
    if NatToString(n)[0] == '0' {
      assert n == 0;
    }
  }

  /** A canonical numeral followed by a non-digit reads back as its value and its length. */
  lemma {:induction false} ReadNumeralOfCanonical(d: string, c: char, t: string)
    requires Canonical(d) && !IsDigit(c)
    ensures ReadNumeral(d + [c] + t) == Some((DigitsValue(d), |d|))
  {
    var txt := d + [c] + t;
    DigitRunOfNumeral(d, c, t);
    assert txt[..|d|] == d;
    assert txt[0] == d[0];
  }

  /** A label whose two numerals and unit letters have been read off is read back as those units. */
  lemma ReadEtaOfParts(txt: string, x: nat, a: nat, u1: char, rest: string, y: nat, b: nat, u2: char)
    requires txt != Unknown && ReadNumeral(txt) == Some((x, a))
    requires a + 2 <= |txt| && txt[a] == u1 && txt[a + 1] == ' ' && txt[a + 2..] == rest
    requires ReadNumeral(rest) == Some((y, b)) && b + 1 == |rest| && rest[b] == u2
    ensures ReadEta(txt) == if u1 == 'm' && u2 == 's' then Some(MinutesSeconds(x, y))
                            else if u1 == 'h' && u2 == 'm' then Some(HoursMinutes(x, y))
                            else None
  {
  }

  /** Where the pieces of a two-unit label sit. */
  lemma LabelShape(dx: string, u1: char, dy: string, u2: char)
    requires dx != []
    ensures var txt := dx + [u1, ' '] + dy + [u2];
      && txt == dx + [u1] + ([' '] + (dy + [u2]))
      && txt != Unknown
      && |dx| + 2 <= |txt| && txt[|dx|] == u1 && txt[|dx| + 1] == ' ' && txt[|dx| + 2..] == dy + [u2]
  {
    var rest := dy + [u2];
    var tail := [u1] + ([' '] + rest);
    var txt := dx + [u1, ' '] + dy + [u2];
    assert txt == dx + tail;
    assert |txt| >= 3;
    assert txt[|dx|..] == tail;
    assert txt[|dx| + 2..] == tail[2..] == rest;
  }

  /** Text built from two canonical numerals and two unit letters reads back as their values and units. */
  lemma ReadTwoNumerals(dx: string, u1: char, dy: string, u2: char)
    requires Canonical(dx) && Canonical(dy) && !IsDigit(u1) && !IsDigit(u2)
    ensures ReadEta(dx + [u1, ' '] + dy + [u2])
         == if u1 == 'm' && u2 == 's' then Some(MinutesSeconds(DigitsValue(dx), DigitsValue(dy)))
            else if u1 == 'h' && u2 == 'm' then Some(HoursMinutes(DigitsValue(dx), DigitsValue(dy)))
            else None
  {
    var rest := dy + [u2];
    LabelShape(dx, u1, dy, u2);
    ReadNumeralOfCanonical(dx, u1, [' '] + rest);
    ReadNumeralOfCanonical(dy, u2, []);
    assert dy + [u2] + [] == rest;
    ReadEtaOfParts(dx + [u1, ' '] + dy + [u2], DigitsValue(dx), |dx|, u1, rest, DigitsValue(dy), |dy|, u2);
  }

  /** Reading text built from two rendered numbers and two unit letters recovers the numbers and the units. */
  lemma ReadTwoUnits(x: nat, u1: char, y: nat, u2: char)
    requires !IsDigit(u1) && !IsDigit(u2)
    ensures ReadEta(NatToString(x) + [u1, ' '] + NatToString(y) + [u2])
         == if u1 == 'm' && u2 == 's' then Some(MinutesSeconds(x, y))
            else if u1 == 'h' && u2 == 'm' then Some(HoursMinutes(x, y))
            else None
  {
    NatToStringCanonical(x);
    NatToStringCanonical(y);
    DigitsValueOfNatToString(x);
    DigitsValueOfNatToString(y);
    ReadTwoNumerals(NatToString(x), u1, NatToString(y), u2);
  }

  /** The text says exactly what the seconds count decomposes into. */
  lemma FormatEtaReadsBack(s: int)
    ensures ReadEta(FormatEta(s)) == Some(Decompose(s))
  {
    if s >= 0 {
      var m := s / 60;
      if m > 59 {
        ReadTwoUnits(m / 60, 'h', m % 60, 'm');
        assert NatToString(m / 60) + "h " + NatToString(m % 60) + "m"
            == NatToString(m / 60) + ['h', ' '] + NatToString(m % 60) + ['m'];
        assert m / 60 == s / 3600;
      } else {
        ReadTwoUnits(m, 'm', s % 60, 's');
        assert NatToString(m) + "m " + NatToString(s % 60) + "s"
            == NatToString(m) + ['m', ' '] + NatToString(s % 60) + ['s'];
      }
    }
  }

  /** Two different counts below an hour never share a label. */
  lemma FormatEtaInjectiveBelowHour(s1: int, s2: int)
    requires s1 < 3600 && s2 < 3600 && s1 >= 0 && s2 >= 0
    requires FormatEta(s1) == FormatEta(s2)
    ensures s1 == s2
  {
    FormatEtaReadsBack(s1);
    FormatEtaReadsBack(s2);
  }

  lemma FormatEtaExamples()
    ensures FormatEta(300) == "5m 0s"
    ensures FormatEta(3599) == "59m 59s"
    ensures FormatEta(3600) == "1h 0m"
    ensures FormatEta(-1) == "—"
  {
  }
}

=== FILE: progress.dfy ===
/** The progress-bar percentage recomputed whenever the visited count or the queue length changes. */
module Progress {
  import opened Rounding

  /** Share of the known pages (visited plus queued) that has been visited, in percent, rounded. */
  function ProgressPercent(visited: nat, queueLen: nat): (pct: int)
    ensures 0 <= pct <= 100
    ensures var total := Max(visited + queueLen, 1);
      pct as real - 0.5 <= (visited as real / total as real) * 100.0 < pct as real + 0.5
    ensures visited == 0 ==> pct == 0
    ensures queueLen == 0 && visited > 0 ==> pct == 100
  {
    var total := Max(visited + queueLen, 1);
    var share := (visited as real / total as real) * 100.0;
    ShareAtMostWhole(visited as real, total as real);
    assert queueLen == 0 && visited > 0 ==> share == 100.0 by {
      if queueLen == 0 && visited > 0 {
        assert total == visited;
        assert visited as real / total as real == 1.0;
      }
    }
    Min(100, Round(share))
  }

  /** A part of a positive whole is a fraction between 0 and 1. */
  lemma ShareAtMostWhole(part: real, whole: real)
    requires 0.0 <= part <= whole && whole > 0.0
    ensures 0.0 <= part / whole <= 1.0
  {
    assert part / whole * whole == part;
  }

  /** With the same number of known pages, visiting more never lowers the percentage. */
  lemma ProgressMonotone(v1: nat, q1: nat, v2: nat, q2: nat)
    requires v1 + q1 == v2 + q2 && v1 <= v2
    ensures ProgressPercent(v1, q1) <= ProgressPercent(v2, q2)
  {
    var total := Max(v1 + q1, 1);
    assert (v1 as real / total as real) <= (v2 as real / total as real);
    RoundMonotone((v1 as real / total as real) * 100.0, (v2 as real / total as real) * 100.0);
  }
}

=== FILE: rate_estimator.dfy ===
/**
 * The rate/ETA estimator: an exponential moving average of the write
 * throughput between consecutive samples, projected onto the pages still to
 * write. Time is in milliseconds; rates are in writes per second.
 */
module RateEstimator {
  import opened Rounding
  import opened Status
  import opened EtaFormat

  /** Weight of the newest sample in the moving average. */
  const Alpha: real := 0.3

  /** Shortest interval, in seconds, the estimator divides by. */
  const MinInterval: real := 0.001

  /** The previous sample: its time (0 = no baseline yet), its write count, and the smoothed rate. */
  datatype Tracker = Tracker(t: int, written: int, ema: real)

  /** The state a new session starts from. */
  const ResetTracker: Tracker := Tracker(0, 0, 0.0)

  /** The label shown whenever no estimate exists. */
  const NoEta: string := "ETA —"

  /** Writes per second since the baseline; negative deltas count as none, intervals under 1 ms as 1 ms. */
  function InstantRate(tr: Tracker, written: int, now: int): (rate: real)
    ensures rate >= 0.0
    ensures rate == (Max(written - tr.written, 0) as real) * 1000.0 / (Max(now - tr.t, 1) as real)
  {
    var dt := MaxReal((now - tr.t) as real / 1000.0, MinInterval);
    var dw := Max(written - tr.written, 0);
    dw as real / dt
  }

  /** One smoothing step: the new average lies between the old one and the fresh rate. */
  function Smooth(prev: real, rate: real): (next: real)
    ensures prev <= rate ==> prev <= next <= rate
    ensures rate <= prev ==> rate <= next <= prev
    ensures next - prev == Alpha * (rate - prev)
  {
    Alpha * rate + (1.0 - Alpha) * prev
  }

  /** Seconds to write `remaining` pages at `ema` pages/s, rounded; -1 when there is no positive rate. */
  function EtaSeconds(remaining: nat, ema: real): (sec: int)
    ensures ema <= 0.0 ==> sec == -1
    ensures ema > 0.0 ==> sec >= 0 && sec as real - 0.5 <= remaining as real / ema < sec as real + 0.5
  {
    if ema > 0.0 then Round(remaining as real / ema) else -1
  }

  datatype EtaUpdate = EtaUpdate(tracker: Tracker, txt: string)

  /** Number of pages known to the crawl: visited plus queued. */
  function KnownPages(st: CrawlStatus): nat {
    st.visited + st.queueLen
  }

  /** Feeds one status sample received at `now` to the estimator. */
  function UpdateEta(tr: Tracker, st: CrawlStatus, now: int): (u: EtaUpdate)
    ensures KnownPages(st) == 0 ==> u == EtaUpdate(tr, NoEta)
    ensures KnownPages(st) > 0 && tr.t == 0 ==> u == EtaUpdate(Tracker(now, st.written, 0.0), NoEta)
    ensures KnownPages(st) > 0 && tr.t != 0 ==>
      && u.tracker.t == now && u.tracker.written == st.written
      && u.tracker.ema == Smooth(tr.ema, InstantRate(tr, st.written, now))
      && u.txt == "ETA " + FormatEta(EtaSeconds(Max(KnownPages(st) - st.written, 0), u.tracker.ema))
    ensures tr.ema >= 0.0 ==> u.tracker.ema >= 0.0
    ensures u.txt == NoEta <==> KnownPages(st) == 0 || tr.t == 0 || u.tracker.ema <= 0.0
  {
    var written := st.written;
    var total := Max(st.visited + st.queueLen, 0);
    if total <= 0 then EtaUpdate(tr, NoEta)
    else if tr.t == 0 then EtaUpdate(Tracker(now, written, 0.0), NoEta)
    else
      var ema := Smooth(tr.ema, InstantRate(tr, written, now));
      var remaining := Max(total - written, 0);
      var etaSec := EtaSeconds(remaining, ema);
      assert etaSec < 0 <==> ema <= 0.0;
      assert "ETA " + FormatEta(etaSec) == NoEta <==> FormatEta(etaSec) == Unknown;
      EtaUpdate(Tracker(now, written, ema), "ETA " + FormatEta(etaSec))
  }

  /** The estimator reads only the visited, queued and written counters of a sample. */
  lemma UpdateEtaReadsCounters(tr: Tracker, st1: CrawlStatus, st2: CrawlStatus, now: int)
    requires st1.visited == st2.visited && st1.queueLen == st2.queueLen && st1.written == st2.written
    ensures UpdateEta(tr, st1, now) == UpdateEta(tr, st2, now)
  {
  }

  /** The tracker after a sequence of samples, each with its receive time. */
  function RunSamples(tr: Tracker, samples: seq<(CrawlStatus, int)>): Tracker
    decreases |samples|
  {
    if |samples| == 0 then tr
    else RunSamples(UpdateEta(tr, samples[0].0, samples[0].1).tracker, samples[1..])
  }

  /** The smoothed rate stays non-negative across every sequence of samples. */
  lemma {:induction false} RunKeepsEmaNonNegative(tr: Tracker, samples: seq<(CrawlStatus, int)>)
    requires tr.ema >= 0.0
    ensures RunSamples(tr, samples).ema >= 0.0
    decreases |samples|
  {
    if |samples| > 0 {
      RunKeepsEmaNonNegative(UpdateEta(tr, samples[0].0, samples[0].1).tracker, samples[1..]);
    }
  }

  /** From a reset, every run of samples keeps a non-negative smoothed rate. */
  lemma RunFromResetNonNegative(samples: seq<(CrawlStatus, int)>)
    ensures RunSamples(ResetTracker, samples).ema >= 0.0
  {
    RunKeepsEmaNonNegative(ResetTracker, samples);
  }

  /** Whatever the sample, the first update after a reset shows no estimate. */
  lemma FirstUpdateAfterReset(st: CrawlStatus, now: int)
    ensures UpdateEta(ResetTracker, st, now).txt == NoEta
  {
  }

  /**
   * A baseline taken at 1 s with 100 known pages, then 10 writes in the next
   * 10 s with 90 pages left: the rate is 1 write/s, the average 0.3, the ETA 300 s.
   */
  lemma ScenarioFiveMinutes()
    ensures var first := UpdateEta(ResetTracker, Counters(0, 100, 0), 1000);
      && first.txt == NoEta
      && var second := UpdateEta(first.tracker, Counters(10, 90, 10), 11000);
      && second.tracker == Tracker(11000, 10, 0.3)
      && second.txt == "ETA 5m 0s"
  {
    var first := UpdateEta(ResetTracker, Counters(0, 100, 0), 1000);
    assert first.tracker == Tracker(1000, 0, 0.0);
    var second := UpdateEta(first.tracker, Counters(10, 90, 10), 11000);
    assert InstantRate(first.tracker, 10, 11000) == 1.0;
    assert second.tracker.ema == 0.3;
    assert EtaSeconds(90, 0.3) == 300 by {
      RoundUnique(90.0 / 0.3, 300);
    }
    FormatEtaExamples();
  }

  /**
   * A baseline recorded at time 0 is indistinguishable from no baseline: the
   * next sample records a fresh baseline instead of producing an estimate.
   */
  lemma BaselineAtTimeZeroIsForgotten(st1: CrawlStatus, st2: CrawlStatus, now: int)
    requires KnownPages(st1) > 0 && KnownPages(st2) > 0
    ensures var first := UpdateEta(ResetTracker, st1, 0);
      && first.tracker.t == 0
      && UpdateEta(first.tracker, st2, now) == EtaUpdate(Tracker(now, st2.written, 0.0), NoEta)
  {
  }
}

=== FILE: rounding.dfy ===
/** JavaScript's `Math.round`, `Math.max` and `Math.min`, over idealised (exact) numbers. */
module Rounding {

  function Max(a: int, b: int): int { if a >= b then a else b }

  function Min(a: int, b: int): int { if a <= b then a else b }

  function MaxReal(a: real, b: real): real { if a >= b then a else b }

  /** `Math.round`: the nearest integer, halves rounded up. */
  function Round(x: real): (r: int)
    ensures r as real - 0.5 <= x < r as real + 0.5
  {
    (x + 0.5).Floor
  }

  /** The nearest integer is unique, so the contract of `Round` pins it down. */
  lemma RoundUnique(x: real, n: int)
    requires n as real - 0.5 <= x < n as real + 0.5
    ensures Round(x) == n
  {
  }

  /** Rounding preserves order. */
  lemma RoundMonotone(x: real, y: real)
    requires x <= y
    ensures Round(x) <= Round(y)
  {
  }
}

=== FILE: session.dfy ===
/**
 * The crawl-session controller: what the start and stop actions, the
 * warm-up timer and the status-poll timer do to the panel's state. Timers are
 * optional handles; time and backend replies are inputs.
 */
module Session {
  import opened Wrappers
  import opened Text
  import opened Status
  import opened Progress
  import opened Warmup
  import opened RateEstimator
  import opened StartForm

  /** An interval handle as returned by the runtime: a positive id, since a zero id would read as "no timer" in the guards. */
  type Handle = h: nat | h > 0 witness 1

  /** What the warm-up box shows. */
  datatype WarmupView = WarmupView(active: bool, percent: int, remaining: nat, message: string)

  /** The warm-up box before its first tick. */
  const WarmupIdle: WarmupView := WarmupView(false, 2, WarmupSeconds, WarmupSteps[0].msg)

  datatype Session = Session(
    running: bool,
    showProgress: bool,
    busy: bool,
    statusText: string,
    status: CrawlStatus,
    progress: int,
    eta: string,
    tracker: Tracker,
    warmup: WarmupView,
    warmupEndsAt: int,
    warmupTimer: Option<Handle>,
    pollTimer: Option<Handle>)

  /** The panel as first rendered. */
  const Initial: Session :=
    Session(false, false, false, "Pronto para iniciar.", EmptyStatus, 0, NoEta, ResetTracker,
            WarmupIdle, 0, None, None)

  /** How the backend start call ends: the promise resolves with a success flag, or it throws. */
  datatype StartReply = StartResolved(success: bool) | StartThrew

  /** How the backend stop call ends; a resolved reply's content is not looked at. */
  datatype StopReply = StopResolved(success: bool) | StopThrew

  /** What the start action reports. */
  datatype StartReport =
    | Refused(reason: FormError)
    | Started(config: CrawlConfig)
    | Declined(config: CrawlConfig)
    | StartFailed(config: CrawlConfig)

  // ---------------------------------------------------------------- warm-up

  /** Turns the warm-up box off and clears its timer, if any. */
  function StopWarmup(s: Session): (r: Session)
    ensures !r.warmup.active && r.warmupTimer.None?
    ensures r == s.(warmup := r.warmup, warmupTimer := None)
    ensures r.warmup.(active := s.warmup.active) == s.warmup
  {
    s.(warmup := s.warmup.(active := false), warmupTimer := None)
  }

  /** Applies one warm-up tick at `now`; on reaching the end it stops the warm-up. */
  function ApplyTick(s: Session, now: int): (r: Session)
    ensures var v := Tick(s.warmupEndsAt, now);
      && r.warmup.percent == v.percent && r.warmup.remaining == v.remaining && r.warmup.message == v.message
      && (v.complete ==> !r.warmup.active && r.warmupTimer.None?)
      && (!v.complete ==> r.warmup.active == s.warmup.active && r.warmupTimer == s.warmupTimer)
    ensures r == s.(warmup := r.warmup, warmupTimer := r.warmupTimer)
  {
    var v := Tick(s.warmupEndsAt, now);
    var shown := s.(warmup := s.warmup.(percent := v.percent, remaining := v.remaining, message := v.message));
    if v.remaining <= 0 then StopWarmup(shown) else shown
  }

  /**
   * Starts the warm-up at `now`: resets the box, ticks once immediately, then
   * stores the new interval handle.
   */
  function StartWarmup(s: Session, now: int, h: Handle): (r: Session)
    ensures r.warmup == WarmupView(true, 2, WarmupSeconds, "ajustando trigger…")
    ensures r.warmupTimer == Some(h)
    ensures r.warmupEndsAt == now + WarmupSeconds * 1000
    ensures r == s.(warmup := r.warmup, warmupEndsAt := r.warmupEndsAt, warmupTimer := r.warmupTimer)
  {
    var reset := s.(warmup := WarmupView(true, 2, WarmupSeconds, WarmupSteps[0].msg),
                    warmupEndsAt := now + WarmupSeconds * 1000);
    TickAtStart(now);
    var ticked := ApplyTick(reset, now);
    ticked.(warmupTimer := Some(h))
  }

  /** The warm-up interval fires at `now`; a cleared interval never fires. */
  function WarmupFires(s: Session, now: int): (r: Session)
    ensures s.warmupTimer.None? ==> r == s
    ensures 2 <= s.warmup.percent <= 100 ==> 2 <= r.warmup.percent <= 100
    ensures s.warmupTimer.Some? ==>
      (r.warmupTimer.None? <==> now >= s.warmupEndsAt) && (r.warmupTimer.None? ==> !r.warmup.active)
    ensures now < s.warmupEndsAt ==> r.warmup.active == s.warmup.active && r.warmupTimer == s.warmupTimer
    ensures s.warmupTimer.Some? ==> var v := Tick(s.warmupEndsAt, now);
      r.warmup.percent == v.percent && r.warmup.remaining == v.remaining && r.warmup.message == v.message
    ensures r == s.(warmup := r.warmup, warmupTimer := r.warmupTimer)
  {
    if s.warmupTimer.None? then s else ApplyTick(s, now)
  }

  // ---------------------------------------------------------------- polling

  /** Starts the status poll unless a poll timer already exists. */
  function StartPolling(s: Session, h: Handle): (r: Session)
    ensures r.pollTimer.Some?
    ensures s.pollTimer.Some? ==> r == s
    ensures s.pollTimer.None? ==> r == s.(pollTimer := Some(h))
  {
    if s.pollTimer.None? then s.(pollTimer := Some(h)) else s
  }

  /** Clears the status poll timer, if any. */
  function StopPolling(s: Session): (r: Session)
    ensures r.pollTimer.None?
    ensures r == s.(pollTimer := None)
  {
    if s.pollTimer.Some? then s.(pollTimer := None) else s
  }

  /**
   * One poll as the source writes it: the new sample is shown, and the
   * estimator is fed only if `capturedRunning`, the running flag as it was
   * when the poll timer was created, is set.
   */
  function PollFiresAsWritten(s: Session, capturedRunning: bool, reply: Option<CrawlStatus>, now: int): (r: Session)
    ensures s.pollTimer.None? || reply.None? ==> r == s
    ensures !capturedRunning ==> r.tracker == s.tracker && r.eta == s.eta
    ensures s.pollTimer.Some? && reply.Some? ==>
      r.status == reply.value && r.progress == ProgressPercent(reply.value.visited, reply.value.queueLen)
    ensures r == s.(status := r.status, progress := r.progress, tracker := r.tracker, eta := r.eta)
  {
    if s.pollTimer.None? then s
    else match reply
      case None => s
      case Some(st) =>
        var shown := s.(status := st, progress := ProgressPercent(st.visited, st.queueLen));
        if capturedRunning then
          var u := UpdateEta(s.tracker, st, now);
          shown.(tracker := u.tracker, eta := u.txt)
        else shown
  }

  /** One poll, reading the running flag as it is when the poll fires. */
  function PollFires(s: Session, reply: Option<CrawlStatus>, now: int): (r: Session)
    ensures s.pollTimer.None? || reply.None? ==> r == s
    ensures s.pollTimer.Some? && reply.Some? ==>
      && r.status == reply.value
      && r.progress == ProgressPercent(reply.value.visited, reply.value.queueLen)
      && (s.running ==>
            r.tracker == UpdateEta(s.tracker, reply.value, now).tracker && r.eta == UpdateEta(s.tracker, reply.value, now).txt)
      && (!s.running ==> r.tracker == s.tracker && r.eta == s.eta)
    ensures r.running == s.running && r.pollTimer == s.pollTimer && r.warmupTimer == s.warmupTimer
    ensures r == s.(status := r.status, progress := r.progress, tracker := r.tracker, eta := r.eta)
  {
    PollFiresAsWritten(s, s.running, reply, now)
  }

  // ---------------------------------------------------------------- actions

  /**
   * What an accepted start does: raise the running, progress and busy flags,
   * reset the estimator, start the warm-up and start the poll.
   */
  function Launch(s: Session, now: int, warmupHandle: Handle, pollHandle: Handle): (r: Session)
    ensures r.running && r.showProgress && r.busy && r.statusText == "Iniciando"
    ensures r.tracker == ResetTracker
    ensures r.warmup == WarmupView(true, 2, WarmupSeconds, "ajustando trigger…")
    ensures r.warmupTimer == Some(warmupHandle) && r.warmupEndsAt == now + WarmupSeconds * 1000
    ensures r.pollTimer == (if s.pollTimer.Some? then s.pollTimer else Some(pollHandle))
    ensures r.status == s.status && r.progress == s.progress && r.eta == s.eta
  {
    var flagged := s.(running := true, showProgress := true, statusText := "Iniciando", busy := true,
                      tracker := ResetTracker);
    StartPolling(StartWarmup(flagged, now, warmupHandle), pollHandle)
  }

  /** The start action: validate, build the configuration, call the backend, start both timers. */
  function HandleStart(s: Session, form: Form, reply: StartReply, now: int, warmupHandle: Handle, pollHandle: Handle)
    : (r: (Session, StartReport))
    ensures r.1.Refused? ==> r.1.reason == MissingUrl && AllWhitespace(form.url) && r.0 == s
    ensures !r.1.Refused? ==> !AllWhitespace(form.url) && r.1.config == BuildConfig(form).value
    ensures r.1.Started? ==> reply == StartResolved(true) && r.0 == Launch(s, now, warmupHandle, pollHandle)
    ensures r.1.Declined? ==> reply == StartResolved(false) && r.0 == s
    ensures r.1.StartFailed? ==> reply == StartThrew && r.0 == s
  {
    match BuildConfig(form)
    case Failure(e) => (s, Refused(e))
    case Success(config) =>
      match reply
      case StartThrew => (s, StartFailed(config))
      case StartResolved(success) =>
        if !success then (s, Declined(config))
        else (Launch(s, now, warmupHandle, pollHandle), Started(config))
  }

  /** The stop action: only once the backend stop call resolves are the flag and both timers cleared. */
  function HandleStop(s: Session, reply: StopReply): (r: Session)
    ensures reply.StopThrew? ==> r == s
    ensures reply.StopResolved? ==>
      && !r.running && r.warmupTimer.None? && r.pollTimer.None? && !r.warmup.active
      && r.showProgress == s.showProgress && r.status == s.status && r.eta == s.eta && r.tracker == s.tracker
    ensures r == s.(running := r.running, warmup := r.warmup, warmupTimer := r.warmupTimer, pollTimer := r.pollTimer)
    ensures r.warmup.(active := s.warmup.active) == s.warmup
  {
    match reply
    case StopThrew => s
    case StopResolved(_) => StopPolling(StopWarmup(s.(running := false)))
  }

  /** Unmounting the panel clears both timers. */
  function Teardown(s: Session): (r: Session)
    ensures r.warmupTimer.None? && r.pollTimer.None? && !r.warmup.active
    ensures r == s.(warmup := r.warmup, warmupTimer := None, pollTimer := None)
    ensures r.warmup.(active := s.warmup.active) == s.warmup
  {
    StopWarmup(StopPolling(s))
  }

  /** After a resolved stop, unmounting has nothing left to clear. */
  lemma TeardownAfterStop(s: Session, success: bool)
    ensures Teardown(HandleStop(s, StopResolved(success))) == HandleStop(s, StopResolved(success))
  {
  }

  // ---------------------------------------------------------------- idempotence

  lemma StopWarmupIdempotent(s: Session)
    ensures StopWarmup(StopWarmup(s)) == StopWarmup(s)
  {
  }

  lemma StopPollingIdempotent(s: Session)
    ensures StopPolling(StopPolling(s)) == StopPolling(s)
  {
  }

  /** A second start of the poll keeps the first timer. */
  lemma StartPollingIdempotent(s: Session, h1: Handle, h2: Handle)
    ensures StartPolling(StartPolling(s, h1), h2) == StartPolling(s, h1)
  {
  }

  /** Stopping twice ends where stopping once does, whatever the replies' content. */
  lemma HandleStopIdempotent(s: Session, a: bool, b: bool)
    ensures HandleStop(HandleStop(s, StopResolved(a)), StopResolved(b)) == HandleStop(s, StopResolved(a))
  {
  }

  /** A failed stop leaves both timers and the running flag in place. */
  lemma FailedStopKeepsTimers(s: Session)
    ensures HandleStop(s, StopThrew).pollTimer == s.pollTimer
    ensures HandleStop(s, StopThrew).warmupTimer == s.warmupTimer
    ensures HandleStop(s, StopThrew).running == s.running
  {
  }

  /** A sample's `finished` flag neither ends the session nor changes what the poll shows. */
  lemma FinishedFlagIgnored(s: Session, st: CrawlStatus, now: int)
    ensures var done := PollFires(s, Some(st.(finished := Some(true))), now);
      && var open := PollFires(s, Some(st.(finished := None)), now);
      && done.running == open.running == s.running
      && done.pollTimer == open.pollTimer == s.pollTimer
      && done.warmupTimer == open.warmupTimer == s.warmupTimer
      && done.tracker == open.tracker && done.eta == open.eta && done.progress == open.progress
  {
    UpdateEtaReadsCounters(s.tracker, st.(finished := Some(true)), st.(finished := None), now);
  }

  // ---------------------------------------------------------------- reachable states

  /** What the user can do and what the timers can do. */
  datatype Event =
    | StartPressed(form: Form, startReply: StartReply, now: int, warmupHandle: Handle, pollHandle: Handle)
    | StopPressed(stopReply: StopReply)
    | WarmupTimerFired(now: int)
    | PollTimerFired(pollReply: Option<CrawlStatus>, now: int)

  /**
   * The panel renders the start button only while the progress view is
   * hidden, and the stop button only while it is shown.
   */
  predicate Offered(s: Session, e: Event) {
    match e
    case StartPressed(_, _, _, _, _) => !s.showProgress
    case StopPressed(_) => s.showProgress
    case _ => true
  }

  /**
   * One event. A press of a button the panel does not render changes
   * nothing; only a start press creates a poll timer; only a poll touches
   * the counters and the ETA label, and a poll never starts or ends a session.
   */
  function Step(s: Session, e: Event): (r: Session)
    ensures e.StartPressed? && s.showProgress ==> r == s
    ensures e.StopPressed? && !s.showProgress ==> r == s
    ensures s.pollTimer.None? && r.pollTimer.Some? ==> e.StartPressed? && !s.showProgress
    ensures !e.PollTimerFired? ==> r.status == s.status && r.eta == s.eta
    ensures e.PollTimerFired? ==> r.running == s.running && r.pollTimer == s.pollTimer && r.warmupTimer == s.warmupTimer
  {
    if !Offered(s, e) then s
    else match e
      case StartPressed(form, reply, now, hw, hp) => HandleStart(s, form, reply, now, hw, hp).0
      case StopPressed(reply) => HandleStop(s, reply)
      case WarmupTimerFired(now) => WarmupFires(s, now)
      case PollTimerFired(reply, now) => PollFires(s, reply, now)
  }

  function RunEvents(s: Session, events: seq<Event>): Session
    decreases |events|
  {
    if |events| == 0 then s else RunEvents(Step(s, events[0]), events[1..])
  }

  /** What holds in every state the panel can reach. */
  predicate Valid(s: Session) {
    && s.tracker.ema >= 0.0
    && s.progress == ProgressPercent(s.status.visited, s.status.queueLen)
    && 0 <= s.progress <= 100
    && 2 <= s.warmup.percent <= 100
    && (s.warmup.active <==> s.warmupTimer.Some?)
    && (s.running <==> s.pollTimer.Some?)
    && (s.warmupTimer.Some? ==> s.running)
    && (s.running ==> s.showProgress)
  }

  lemma InitialValid()
    ensures Valid(Initial)
  {
  }

  lemma StepPreservesValid(s: Session, e: Event)
    requires Valid(s)
    ensures Valid(Step(s, e))
  {
    if Offered(s, e) {
      match e
      case StartPressed(form, reply, now, hw, hp) =>
      case StopPressed(reply) =>
      case WarmupTimerFired(now) =>
      case PollTimerFired(reply, now) =>
    }
  }

  /** Every sequence of events from the first render keeps the panel's invariant. */
  lemma {:induction false} RunPreservesValid(s: Session, events: seq<Event>)
    requires Valid(s)
    ensures Valid(RunEvents(s, events))
    decreases |events|
  {
    if |events| > 0 {
      StepPreservesValid(s, events[0]);
      RunPreservesValid(Step(s, events[0]), events[1..]);
    }
  }

  /** The start button is only ever pressed while no crawl is running. */
  lemma StartOnlyWhenStopped(s: Session, e: Event)
    requires Valid(s) && e.StartPressed? && Offered(s, e)
    ensures !s.running
  {
  }

  /** Every poll timer is created by an accepted start pressed while no crawl was running. */
  lemma PollTimerBornWhileStopped(s: Session, e: Event)
    requires Valid(s)
    ensures s.pollTimer.None? && Step(s, e).pollTimer.Some? ==>
              e.StartPressed? && Offered(s, e) && !s.running && e.startReply == StartResolved(true)
  {
  }

  // ---------------------------------------------------------------- the stale running flag

  /**
   * The panel as the source behaves: the poll callback tests the running flag
   * captured when its timer was created, which is always false.
   */
  function StepAsWritten(s: Session, e: Event): (r: Session)
    ensures r.eta == s.eta
    ensures r == Step(s, e).(tracker := r.tracker, eta := r.eta)
  {
    if Offered(s, e) && e.PollTimerFired? then PollFiresAsWritten(s, false, e.pollReply, e.now)
    else Step(s, e)
  }

  function RunAsWritten(s: Session, events: seq<Event>): Session
    decreases |events|
  {
    if |events| == 0 then s else RunAsWritten(StepAsWritten(s, events[0]), events[1..])
  }

  /** As written, no sequence of events ever changes the ETA label. */
  lemma {:induction false} AsWrittenEtaFrozen(s: Session, events: seq<Event>)
    ensures RunAsWritten(s, events).eta == s.eta
    decreases |events|
  {
    if |events| > 0 {
      AsWrittenEtaFrozen(StepAsWritten(s, events[0]), events[1..]);
    }
  }

  /**
   * In a running session with a fresh tracker (as every accepted start leaves
   * it), a baseline sample and a sample ten seconds later make the corrected
   * poll show "ETA 5m 0s", while the poll as written keeps the old label.
   */
  lemma StaleFlagFreezesEta(s: Session)
    requires s.running && s.pollTimer.Some? && s.tracker == ResetTracker
    ensures var fixed := PollFires(PollFires(s, Some(Counters(0, 100, 0)), 1000), Some(Counters(10, 90, 10)), 11000);
      && var stale := PollFiresAsWritten(PollFiresAsWritten(s, false, Some(Counters(0, 100, 0)), 1000),
                                         false, Some(Counters(10, 90, 10)), 11000);
      && fixed.eta == "ETA 5m 0s"
      && stale.eta == s.eta
  {
    ScenarioFiveMinutes();
  }
}

=== FILE: start_form.dfy ===
/**
 * Turning the start form into the configuration sent to the backend: the URL
 * is trimmed, refused when empty and given a scheme when it lacks one; the
 * exclude list is split on commas and cleaned.
 */
module StartForm {
  import opened Wrappers
  import opened Text

  /** The fields of the start form, as typed. */
  datatype Form = Form(
    url: string,
    targetDomain: string,
    maxDepth: int,
    maxExternalDomains: int,
    excludeDomains: string,
    useOAuth2: bool)

  /** What the backend is asked to crawl. */
  datatype CrawlConfig = CrawlConfig(
    url: string,
    targetDomain: Option<string>,
    maxDepth: int,
    maxExternalDistinct: int,
    excludeDomains: seq<string>,
    useOAuth2: bool)

  /** The only way building a configuration fails. */
  datatype FormError = MissingUrl

  const DefaultScheme: string := "https://"

  /** Keeps a URL that starts with "http"; otherwise puts "https://" in front. */
  function NormalizeUrl(trimmed: string): (r: string)
    ensures StartsWith(r, "http")
    ensures r == trimmed <==> StartsWith(trimmed, "http")
    ensures r != trimmed ==> r == DefaultScheme + trimmed
  {
    if StartsWith(trimmed, "http") then trimmed else DefaultScheme + trimmed
  }

  /** Normalising twice is normalising once. */
  lemma NormalizeUrlIdempotent(u: string)
    ensures NormalizeUrl(NormalizeUrl(u)) == NormalizeUrl(u)
  {
  }

  /** Trims every piece and drops the pieces that are empty after trimming, keeping the order. */
  function CleanEntries(pieces: seq<string>): (entries: seq<string>)
    ensures |entries| <= |pieces|
    ensures forall e :: e in entries ==> e != [] && IsTrimmed(e)
    ensures forall e :: e in entries ==> exists p :: p in pieces && e == Trim(p)
    ensures forall p :: p in pieces && Trim(p) != [] ==> Trim(p) in entries
    decreases |pieces|
  {
    if |pieces| == 0 then []
    else
      var rest := CleanEntries(pieces[1..]);
      var head := Trim(pieces[0]);
      var entries := if head == [] then rest else [head] + rest;
      assert forall p :: p in pieces <==> p == pieces[0] || p in pieces[1..] by {
        assert pieces == [pieces[0]] + pieces[1..];
      }
      entries
  }

  /** One piece gives its trim, or nothing when it is blank. */
  lemma CleanEntriesOne(piece: string)
    ensures CleanEntries([piece]) == if Trim(piece) == [] then [] else [Trim(piece)]
  {
    assert [piece][1..] == [];
  }

  /** Cleaning works piece by piece: order and repeated entries are kept. */
  lemma {:induction false} CleanEntriesAppend(a: seq<string>, b: seq<string>)
    ensures CleanEntries(a + b) == CleanEntries(a) + CleanEntries(b)
    decreases |a|
  {
    if |a| == 0 {
      assert a + b == b;
    } else {
      assert (a + b)[0] == a[0];
      assert (a + b)[1..] == a[1..] + b;
      CleanEntriesAppend(a[1..], b);
    }
  }

  /** The exclude list: comma-separated entries, trimmed, empty ones dropped. */
  function ExcludeList(raw: string): (entries: seq<string>)
    ensures forall e :: e in entries ==> e != [] && IsTrimmed(e) && ',' !in e
  {
    var pieces := Split(raw, ',');
    var entries := CleanEntries(pieces);
    forall e | e in entries
      ensures ',' !in e
    {
      var p :| p in pieces && e == Trim(p);
    }
    entries
  }

  /** Every non-blank comma-separated piece of the raw text appears, trimmed, in the exclude list. */
  lemma ExcludeListComplete(raw: string, piece: string)
    requires piece in Split(raw, ',') && Trim(piece) != []
    ensures Trim(piece) in ExcludeList(raw)
  {
  }

  /** Text without commas or surrounding blanks is a one-entry list of itself. */
  lemma ExcludeListSingle(domain: string)
    requires domain != [] && IsTrimmed(domain) && ',' !in domain
    ensures ExcludeList(domain) == [domain]
  {
    SplitNoSeparator(domain, ',');
    TrimOfTrimmed(domain);
  }

  /** Builds the configuration, or refuses a URL that is blank after trimming. */
  function BuildConfig(form: Form): (r: Result<CrawlConfig, FormError>)
    ensures r.Failure? ==> r.error == MissingUrl && AllWhitespace(form.url)
    ensures r.Success? ==> !AllWhitespace(form.url)
    ensures r.Success? ==> var t := Trim(form.url);
      && (r.value.url == t <==> StartsWith(t, "http"))
      && (r.value.url != t ==> r.value.url == DefaultScheme + t)
    ensures r.Success? ==> forall e :: e in r.value.excludeDomains ==> e != [] && IsTrimmed(e) && ',' !in e
    ensures r.Success? ==> r.value.excludeDomains == ExcludeList(form.excludeDomains)
    ensures r.Success? ==> (r.value.targetDomain.None? <==> form.targetDomain == [])
    ensures r.Success? ==> (r.value.targetDomain.Some? ==> r.value.targetDomain.value == form.targetDomain)
    ensures r.Success? ==> r.value.maxDepth == form.maxDepth && r.value.maxExternalDistinct == form.maxExternalDomains
    ensures r.Success? ==> r.value.useOAuth2 == form.useOAuth2
  {
    var normalized := Trim(form.url);
    if normalized == [] then Failure(MissingUrl)
    else
      Success(CrawlConfig(
        NormalizeUrl(normalized),
        if form.targetDomain == [] then None else Some(form.targetDomain),
        form.maxDepth,
        form.maxExternalDomains,
        ExcludeList(form.excludeDomains),
        form.useOAuth2))
  }

  /** A URL of blanks only is refused. */
  lemma BuildConfigRefusesBlank()
    ensures BuildConfig(Form(" \t", "x.org", 5, 1, "", true)) == Failure(MissingUrl)
  {
    var blank := " \t";
    assert AllWhitespace(blank) by {
      assert IsWhitespace(blank[0]) && IsWhitespace(blank[1]);
    }
  }
}

=== FILE: status.dfy ===
/** A point-in-time status sample reported by the crawl backend. */
module Status {
  import opened Wrappers

  datatype CrawlStatus = CrawlStatus(
    visited: nat,
    queueLen: nat,
    written: nat,
    externalSkips: nat,
    error: Option<string>,
    currentProcess: Option<string>,
    finished: Option<bool>)

  /** The counters shown before any sample arrives. */
  const EmptyStatus: CrawlStatus := CrawlStatus(0, 0, 0, 0, None, None, None)

  /** A sample carrying only the three counters the estimator reads. */
  function Counters(visited: nat, queueLen: nat, written: nat): CrawlStatus {
    CrawlStatus(visited, queueLen, written, 0, None, None, None)
  }
}

=== FILE: text.dfy ===
/**
 * The string primitives the panel relies on: JavaScript's `trim`, `startsWith`
 * and `split`, and the decimal rendering of a non-negative integer.
 */
module Text {

  /** The code points JavaScript's `String.prototype.trim` strips: WhiteSpace and LineTerminator. */
  predicate IsWhitespace(c: char) {
    || c == ' ' || c == '\t' || c == '\n' || c == '\r'
    || c == '\U{000B}' || c == '\U{000C}' || c == '\U{00A0}' || c == '\U{1680}'
    || ('\U{2000}' <= c <= '\U{200A}')
    || c == '\U{2028}' || c == '\U{2029}' || c == '\U{202F}' || c == '\U{205F}'
    || c == '\U{3000}' || c == '\U{FEFF}'
  }

  predicate AllWhitespace(s: string) {
    forall i :: 0 <= i < |s| ==> IsWhitespace(s[i])
  }

  /** `s` has no whitespace at either end. */
  predicate IsTrimmed(s: string) {
    s == [] || (!IsWhitespace(s[0]) && !IsWhitespace(s[|s| - 1]))
  }

  /** The first index at or after `i` that does not hold whitespace, or `|s|` when there is none. */
  function LeadingEnd(s: string, i: nat): (k: nat)
    requires i <= |s|
    ensures i <= k <= |s|
    ensures forall m :: i <= m < k ==> IsWhitespace(s[m])
    ensures k < |s| ==> !IsWhitespace(s[k])
    decreases |s| - i
  {
    if i < |s| && IsWhitespace(s[i]) then LeadingEnd(s, i + 1) else i
  }

  /**
   * Scanning down from `j`, no lower than `lo`: the end of the last character
   * that is not whitespace, or `lo` when there is none.
   */
  function TrailingStart(s: string, j: nat, lo: nat): (k: nat)
    requires lo <= j <= |s|
    ensures lo <= k <= j
    ensures forall m :: k <= m < j ==> IsWhitespace(s[m])
    ensures k > lo ==> !IsWhitespace(s[k - 1])
    decreases j
  {
    if j > lo && IsWhitespace(s[j - 1]) then TrailingStart(s, j - 1, lo) else j
  }

  /** JavaScript's `trim`: the slice between the leading and the trailing whitespace. */
  function Trim(s: string): (r: string)
    ensures IsTrimmed(r)
    ensures forall c :: c in r ==> c in s
    ensures r == [] <==> AllWhitespace(s)
    ensures exists i, j :: 0 <= i <= j <= |s| && r == s[i..j] && AllWhitespace(s[..i]) && AllWhitespace(s[j..])
  {
    var i := LeadingEnd(s, 0);
    var j := TrailingStart(s, |s|, i);
    assert AllWhitespace(s[..i]);
    assert AllWhitespace(s[j..]) by {
      forall m | 0 <= m < |s| - j
        ensures IsWhitespace(s[j..][m])
      {
        assert s[j..][m] == s[j + m];
      }
    }
    s[i..j]
  }

  /** Trimming changes nothing on a string that is already trimmed. */
  lemma TrimOfTrimmed(s: string)
    requires IsTrimmed(s)
    ensures Trim(s) == s
  {
  }

  /** Trimming twice is trimming once. */
  lemma TrimIdempotent(s: string)
    ensures Trim(Trim(s)) == Trim(s)
  {
    TrimOfTrimmed(Trim(s));
  }

  /** JavaScript's `startsWith`. */
  predicate StartsWith(s: string, prefix: string)
    ensures StartsWith(s, prefix) <==> |prefix| <= |s| && forall i :: 0 <= i < |prefix| ==> s[i] == prefix[i]
  {
    |prefix| <= |s| && s[..|prefix|] == prefix
  }

  /** JavaScript's `split` on a one-character separator: every separator cuts, empty pieces are kept. */
  function Split(s: string, sep: char): (parts: seq<string>)
    ensures |parts| >= 1
    ensures forall i :: 0 <= i < |parts| ==> sep !in parts[i]
    decreases |s|
  {
    if |s| == 0 then [""]
    else
      var rest := Split(s[1..], sep);
      if s[0] == sep then [""] + rest
      else [[s[0]] + rest[0]] + rest[1..]
  }

  /** Glues pieces back together with the separator between consecutive pieces. */
  function Join(parts: seq<string>, sep: char): string
    requires |parts| >= 1
    decreases |parts|
  {
    if |parts| == 1 then parts[0] else parts[0] + [sep] + Join(parts[1..], sep)
  }

  /** Splitting loses nothing: joining the pieces gives back the input. */
  lemma {:induction false} JoinSplit(s: string, sep: char)
    ensures Join(Split(s, sep), sep) == s
    decreases |s|
  {
    if |s| > 0 {
      var rest := Split(s[1..], sep);
      JoinSplit(s[1..], sep);
      if s[0] != sep {
        if |rest| == 1 {
          assert Join(Split(s, sep), sep) == [s[0]] + rest[0];
        } else {
          assert rest == [rest[0]] + rest[1..];
          assert Join(rest, sep) == rest[0] + [sep] + Join(rest[1..], sep);
        }
      }
    }
  }

  /** A separator-free string splits into itself alone. */
  lemma {:induction false} SplitNoSeparator(a: string, sep: char)
    requires sep !in a
    ensures Split(a, sep) == [a]
    decreases |a|
  {
    if |a| > 0 {
      SplitNoSeparator(a[1..], sep);
      assert [a[0]] + a[1..] == a;
    }
  }

  /** Splitting at the first separator: the separator-free head becomes the first piece. */
  lemma {:induction false} SplitAtSeparator(a: string, sep: char, b: string)
    requires sep !in a
    ensures Split(a + [sep] + b, sep) == [a] + Split(b, sep)
    decreases |a|
  {
    var s := a + [sep] + b;
    if |a| == 0 {
      assert s[1..] == b;
    } else {
      assert s[1..] == a[1..] + [sep] + b;
      SplitAtSeparator(a[1..], sep, b);
      assert [a[0]] + a[1..] == a;
    }
  }

  /** Joining separator-free pieces and splitting again gives back the pieces. */
  lemma {:induction false} SplitJoin(parts: seq<string>, sep: char)
    requires |parts| >= 1
    requires forall i :: 0 <= i < |parts| ==> sep !in parts[i]
    ensures Split(Join(parts, sep), sep) == parts
    decreases |parts|
  {
    if |parts| == 1 {
      SplitNoSeparator(parts[0], sep);
    } else {
      SplitJoin(parts[1..], sep);
      SplitAtSeparator(parts[0], sep, Join(parts[1..], sep));
      assert [parts[0]] + parts[1..] == parts;
    }
  }

  predicate IsDigit(c: char) {
    '0' <= c <= '9'
  }

  predicate AllDigits(s: string) {
    forall i :: 0 <= i < |s| ==> IsDigit(s[i])
  }

  function DigitChar(d: nat): (c: char)
    requires d < 10
    ensures IsDigit(c) && (c as int) - ('0' as int) == d
  {
    (('0' as int) + d) as char
  }

  /** The value of a string of decimal digits (0 for the empty string). */
  function DigitsValue(s: string): nat
    requires AllDigits(s)
    decreases |s|
  {
    if |s| == 0 then 0
    else DigitsValue(s[..|s| - 1]) * 10 + ((s[|s| - 1] as int) - ('0' as int))
  }

  /** The decimal text JavaScript produces for a non-negative integer: no sign, no leading zero. */
  function NatToString(n: nat): (r: string)
    ensures |r| >= 1 && AllDigits(r)
    ensures r[0] == '0' ==> n == 0
    decreases n
  {
    if n < 10 then [DigitChar(n)] else NatToString(n / 10) + [DigitChar(n % 10)]
  }

  /** Reading the digits back gives the number. */
  lemma {:induction false} DigitsValueOfNatToString(n: nat)
    ensures DigitsValue(NatToString(n)) == n
    decreases n
  {
    if n >= 10 {
      DigitsValueOfNatToString(n / 10);
      var r := NatToString(n);
      assert r[..|r| - 1] == NatToString(n / 10);
    }
  }

  /** Length of the longest all-digit prefix. */
  function DigitRun(s: string): (k: nat)
    ensures k <= |s| && AllDigits(s[..k])
    ensures k < |s| ==> !IsDigit(s[k])
    decreases |s|
  {
    if |s| > 0 && IsDigit(s[0]) then 1 + DigitRun(s[1..]) else 0
  }

  /** The digit run of a numeral followed by a non-digit ends at that non-digit. */
  lemma {:induction false} DigitRunOfNumeral(d: string, c: char, t: string)
    requires AllDigits(d) && !IsDigit(c)
    ensures DigitRun(d + [c] + t) == |d|
    decreases |d|
  {
    if |d| > 0 {
      assert (d + [c] + t)[1..] == d[1..] + [c] + t;
      DigitRunOfNumeral(d[1..], c, t);
    }
  }
}

=== FILE: warmup.dfy ===
/**
 * The warm-up simulator: for the first seventy seconds of a session the panel
 * shows a synthetic countdown, a percentage and a stage message, all derived
 * from the wall-clock time left until the warm-up end.
 */
module Warmup {
  import opened Rounding

  /** Length of the warm-up in seconds. */
  const WarmupSeconds: nat := 70

  /** One row of the stage table: from `threshold` elapsed seconds on, show `msg`. */
  datatype Step = Step(threshold: int, msg: string)

  /** The stage table, ordered by threshold. */
  const WarmupSteps: seq<Step> := [
    Step(0, "ajustando trigger…"),
    Step(10, "checando permissões…"),
    Step(20, "criando fila inicial…"),
    Step(35, "buscando sitemaps…"),
    Step(50, "preparando workers…"),
    Step(60, "iniciando primeira coleta…")
  ]

  predicate Sorted(steps: seq<Step>) {
    forall i, j :: 0 <= i < j < |steps| ==> steps[i].threshold <= steps[j].threshold
  }

  lemma WarmupStepsSorted()
    ensures |WarmupSteps| > 0 && Sorted(WarmupSteps)
  {
  }

  /**
   * The forward scan with early exit: `cur` is the index of the message held so
   * far, `i` the next step to look at. A step whose threshold is reached
   * replaces the message; the first unreached step ends the scan.
   */
  function Scan(steps: seq<Step>, elapsed: int, i: nat, cur: nat): (k: nat)
    requires i <= |steps| && cur < |steps|
    ensures k < |steps|
    ensures k == cur || steps[k].threshold <= elapsed
    decreases |steps| - i
  {
    if i == |steps| then cur
    else if elapsed >= steps[i].threshold then Scan(steps, elapsed, i + 1, i)
    else cur
  }

  /** Index of the step whose message the scan leaves in place, starting from the first message. */
  function StageIndex(steps: seq<Step>, elapsed: int): (k: nat)
    requires |steps| > 0
    ensures k < |steps|
    ensures k == 0 || steps[k].threshold <= elapsed
  {
    Scan(steps, elapsed, 0, 0)
  }

  /**
   * `k` is the last step whose threshold has been reached; when none is,
   * the first step (the initial message) stands.
   */
  predicate IsLastReached(steps: seq<Step>, elapsed: int, k: int) {
    && 0 <= k < |steps|
    && (k == 0 || steps[k].threshold <= elapsed)
    && forall j :: k < j < |steps| ==> steps[j].threshold > elapsed
  }

  /** At most one index is the last reached step. */
  lemma LastReachedUnique(steps: seq<Step>, elapsed: int, k1: int, k2: int)
    requires IsLastReached(steps, elapsed, k1) && IsLastReached(steps, elapsed, k2)
    ensures k1 == k2
  {
  }

  lemma {:induction false} ScanFindsLastReached(steps: seq<Step>, elapsed: int, i: nat, cur: nat)
    requires Sorted(steps) && 0 < i <= |steps| && cur < |steps|
    requires cur == i - 1
    requires forall j :: 0 < j < i ==> steps[j].threshold <= elapsed
    ensures IsLastReached(steps, elapsed, Scan(steps, elapsed, i, cur))
    decreases |steps| - i
  {
    if i < |steps| && elapsed >= steps[i].threshold {
      ScanFindsLastReached(steps, elapsed, i + 1, i);
    }
  }

  /** On a sorted table the scan yields exactly the last step whose threshold is reached. */
  lemma StageIsLastReached(steps: seq<Step>, elapsed: int)
    requires |steps| > 0 && Sorted(steps)
    ensures IsLastReached(steps, elapsed, StageIndex(steps, elapsed))
  {
    if elapsed >= steps[0].threshold {
      ScanFindsLastReached(steps, elapsed, 1, 0);
    } else {
      assert StageIndex(steps, elapsed) == 0;
    }
  }

  /** On a sorted table the stage never moves backwards as elapsed time grows. */
  lemma StageMonotone(steps: seq<Step>, e1: int, e2: int)
    requires |steps| > 0 && Sorted(steps) && e1 <= e2
    ensures StageIndex(steps, e1) <= StageIndex(steps, e2)
  {
    StageIsLastReached(steps, e1);
    StageIsLastReached(steps, e2);
  }

  /** The stage message shown after `elapsed` seconds: that of the last step reached. */
  function StageMessage(elapsed: int): (msg: string)
    ensures exists k :: IsLastReached(WarmupSteps, elapsed, k) && msg == WarmupSteps[k].msg
  {
    WarmupStepsSorted();
    StageIsLastReached(WarmupSteps, elapsed);
    WarmupSteps[StageIndex(WarmupSteps, elapsed)].msg
  }

  /** Twenty-five seconds in, the table's threshold-20 message is shown. */
  lemma StageAt25()
    ensures StageMessage(25) == "criando fila inicial…"
  {
    WarmupStepsSorted();
    assert IsLastReached(WarmupSteps, 25, 2);
    var k :| IsLastReached(WarmupSteps, 25, k) && StageMessage(25) == WarmupSteps[k].msg;
    LastReachedUnique(WarmupSteps, 25, 2, k);
  }

  /** Whole seconds left, rounded up: `Math.ceil(ms / 1000)`. */
  function CeilSeconds(ms: nat): (sec: nat)
    ensures 1000 * (sec - 1) < ms <= 1000 * sec
  {
    (ms + 999) / 1000
  }

  /** The warm-up percentage: elapsed share of the seventy seconds, rounded, kept within [2, 100]. */
  function WarmupPercent(elapsed: int): (pct: int)
    ensures 2 <= pct <= 100
    ensures 0 <= elapsed <= WarmupSeconds && pct > 2 ==>
      pct as real - 0.5 <= (elapsed as real / WarmupSeconds as real) * 100.0 < pct as real + 0.5
    ensures 0 <= elapsed <= WarmupSeconds && pct == 2 ==> (elapsed as real / WarmupSeconds as real) * 100.0 < 2.5
  {
    Max(2, Min(100, Round((elapsed as real / WarmupSeconds as real) * 100.0)))
  }

  lemma WarmupPercentMonotone(e1: int, e2: int)
    requires e1 <= e2
    ensures WarmupPercent(e1) <= WarmupPercent(e2)
  {
    RoundMonotone((e1 as real / WarmupSeconds as real) * 100.0, (e2 as real / WarmupSeconds as real) * 100.0);
  }

  /** What one tick displays. `complete` is the condition on which the tick stops the warm-up. */
  datatype TickView = TickView(elapsed: int, remaining: nat, percent: int, message: string, complete: bool)

  /** One tick at wall-clock time `now` (ms) of a warm-up that ends at `endsAt` (ms). */
  function Tick(endsAt: int, now: int): (v: TickView)
    ensures 2 <= v.percent <= 100
    ensures 0 <= v.elapsed <= WarmupSeconds
    ensures v.complete <==> v.remaining == 0
    ensures v.complete <==> now >= endsAt
    ensures v.remaining >= WarmupSeconds ==> v.elapsed == 0
    ensures now >= endsAt - WarmupSeconds * 1000 ==>
      v.remaining <= WarmupSeconds && v.elapsed + v.remaining == WarmupSeconds
    ensures now < endsAt ==> 1000 * (v.remaining - 1) < endsAt - now <= 1000 * v.remaining
    ensures v.percent == WarmupPercent(v.elapsed)
    ensures v.message == StageMessage(v.elapsed)
  {
    var remainingMs := Max(0, endsAt - now);
    var remaining := CeilSeconds(remainingMs);
    var elapsed := Max(0, WarmupSeconds - remaining);
    TickView(elapsed, remaining, WarmupPercent(elapsed), StageMessage(elapsed), remaining <= 0)
  }

  /** As wall-clock time advances, elapsed time, percentage and stage never go backwards. */
  lemma TickMonotone(endsAt: int, t1: int, t2: int)
    requires t1 <= t2
    ensures Tick(endsAt, t1).elapsed <= Tick(endsAt, t2).elapsed
    ensures Tick(endsAt, t1).percent <= Tick(endsAt, t2).percent
    ensures StageIndex(WarmupSteps, Tick(endsAt, t1).elapsed) <= StageIndex(WarmupSteps, Tick(endsAt, t2).elapsed)
  {
    var v1, v2 := Tick(endsAt, t1), Tick(endsAt, t2);
    assert v1.remaining >= v2.remaining;
    WarmupPercentMonotone(v1.elapsed, v2.elapsed);
    WarmupStepsSorted();
    StageMonotone(WarmupSteps, v1.elapsed, v2.elapsed);
  }

  /** The tick at the warm-up start shows the initial display: 70 s left, 2 %, first stage. */
  lemma TickAtStart(start: int)
    ensures Tick(start + WarmupSeconds * 1000, start)
         == TickView(0, WarmupSeconds, 2, "ajustando trigger…", false)
  {
  }
}

=== FILE: wrappers.dfy ===
/** The optional-value and outcome datatypes used across the crawl panel model. */
module Wrappers {

  /** An optional value: a timer handle that may be cleared, a field that may be absent. */
  datatype Option<+T> = None | Some(value: T)

  /** The outcome of an operation that can be refused with a reason. */
  datatype Result<+R, +E> = Success(value: R) | Failure(error: E)
}
